=== FILE: README.md ===
# Library lending and reservation model

A Dafny model of the lending core of a library web application. Patrons
check out resources and return them, paying a fine of one dollar per whole
day overdue. Patrons place reservations on resources that are not available,
up to ten PENDING at a time. Staff process returns for any patron.
Administrators promote users to staff and deactivate staff accounts.

The model has two layers:

- `Handlers` gives each request handler as a transition of one `Store` value,
  which holds all the tables. Each guard is checked in the source's order. A
  failed guard returns the store unchanged, together with the reason
  (`Outcome`). A passed one makes every write the handler makes.
- `Library.LibraryDb` is a class whose fields are the tables. Its methods make
  the same writes step by step. Each method's postcondition is the matching
  `Handlers` transition of the old state, and it keeps `Valid()`.

The proved invariant (`LibraryStore.Valid`) says:
- every foreign key resolves;
- each set RFID tag and each set barcode is unique;
- each checkout has at most one return record, and a return record only
  closes a RETURNED checkout;
- each resource has at most one ACTIVE checkout, and none while it is
  AVAILABLE;
- no user holds more than ten PENDING reservations.

Every handler keeps this invariant (`Invariant`), and so does every sequence
of requests served from an empty library (`Traces`).

Time is an integer number of seconds, with 86400 seconds per day. The clock
is a `now` parameter of each operation. Fines are whole dollars (`nat`). The
signed-in user is passed as a user id; an id with no user behind it stands for
a request that nobody is signed in for.

The due-date helper at library/views.py:38-40 adds a `timedelta` that the
module never imports, so as written it raises an error (see Findings). The
model uses the evident intent, a due date fourteen days after `now`.

## Model

| member | source | states |
|---|---|---|
| Models.NewUser | library/models.py:18 | a new account has role PATRON (and no other role) and is active |
| Models.ExactlyOneRole | library/models.py:20-27 | every user satisfies exactly one of is_patron, is_staff_user, is_admin_user; an administrator is neither staff nor patron |
| Models.NewResource | library/models.py:58 | a new resource starts AVAILABLE |
| Models.NewCheckout | library/models.py:80 | a new checkout starts ACTIVE and is not overdue at its own due date |
| Models.IsOverdue | library/models.py:82-83 | a checkout is overdue only while ACTIVE and after its due date; Models.OverdueOnlyWhileActive proves a RETURNED or LOST checkout is never overdue and an overdue one stays overdue |
| Models.OverdueOnlyWhileActive | library/models.py:82-83 | a RETURNED or LOST checkout is never overdue; an overdue checkout stays overdue as time passes |
| Models.NewReservation | library/models.py:115-116 | a new reservation starts PENDING with no hold window |
| Rules.GuardsAreExclusive | library/views.py:12-30 | the staff guard and the admin guard never admit the same user; the staff guard turns administrators away |
| Rules.StaffRequired | library/views.py:12-20 | the staff guard admits only STAFF users, never an administrator or a patron |
| Rules.AdminRequired | library/views.py:23-30 | the admin guard admits only administrators, never staff or patrons |
| Rules.DueDate | library/views.py:38-40 | the due date lies after the checkout time; Rules.DueDateIsFourteenDays pins it at 14 days |
| Rules.DueDateIsFourteenDays | library/views.py:38-40 | a checkout due on the computed date is due exactly 14 days after `now`, and is overdue exactly at times later than that |
| Rules.OverdueFine | library/views.py:43-50 | the fine is 0 when the checkout is not overdue; otherwise it is the floored number of whole days past the due date, never negative |
| Rules.DaysPastDue | library/views.py:49 | the day count is the floor of the seconds past due over 86400, as a duration's day count is |
| Rules.FineChargedIffFullDayLate | library/views.py:43-50 | a fine is charged iff the checkout is ACTIVE and at least one whole day late |
| Rules.FineIsLinear | library/views.py:43-50 | each further whole day late adds exactly one dollar |
| LibraryStore.PendingCount | library/views.py:186-189 | the count of a user's PENDING reservations is at most the number of reservations |
| LibraryStore.ReferencesResolve | library/models.py:76-77 | every checkout, reservation and notification names an existing user and resource, and every return record an existing checkout, as the foreign keys at models.py:76-77, 90, 112-113 and 135 demand |
| LibraryStore.TagsUnique | library/models.py:56-57 | two resources that carry the same set RFID tag, or the same set barcode, are the same resource |
| LibraryStore.ReturnsOneToOne | library/models.py:90 | two return records that close the same checkout are the same record |
| LibraryStore.Valid | library/models.py:56-93 | the schema's constraints together with the lending invariant; EmptyStoreValid and the Invariant lemmas prove it holds initially and after every request |
| LibraryStore.EmptyStoreValid | library/models.py:56-93 | the empty library meets every constraint of the invariant |
| LibraryStore.ValidStoreLendsEachResourceOnce | library/models.py:65-93 | in a valid store each resource has at most one ACTIVE checkout, none while AVAILABLE, and each checkout at most one return record |
| LibraryStore.PendingCountAppend | library/views.py:186-189 | a new reservation raises its own user's PENDING count by one if it is PENDING, and leaves every other user's count alone |
| Invariant.RegisterUserPreservesValid | library/models.py:7-18 | registering a user keeps the store valid |
| Invariant.AddResourcePreservesValid | library/models.py:56-58 | adding a resource whose identifiers are free keeps the store valid, identifiers included |
| Invariant.CheckoutResourcePreservesValid | library/views.py:105-135 | checkout keeps the store valid: the new ACTIVE checkout is the resource's only one and the resource is no longer AVAILABLE |
| Invariant.CloseCheckoutPreservesValid | library/views.py:151-158 | closing an ACTIVE checkout keeps the store valid, including one return record per checkout |
| Invariant.ReturnResourcePreservesValid | library/views.py:139-174 | a patron's return keeps the store valid |
| Invariant.StaffProcessReturnPreservesValid | library/views.py:238-263 | a staff return keeps the store valid |
| Invariant.ReserveResourcePreservesValid | library/views.py:178-209 | reserving keeps the store valid, including the ten-reservation cap for every user |
| Invariant.PromoteToStaffPreservesValid | library/views.py:279-287 | promotion keeps the store valid |
| Invariant.DeactivateStaffPreservesValid | library/views.py:291-299 | deactivation keeps the store valid |
| Invariant.CreateAccountPreservesValid | library/models.py:7-18 | creating an account of any role keeps the store valid |
| Handlers.CreateAccount | library/models.py:7-18 | a refused creation changes nothing; a created account has the chosen role; HandlerSpecs.CreateAccountSpec states the whole transition |
| Handlers.RegisterUser | library/models.py:18 | a refused registration changes nothing; a registered account is a PATRON; HandlerSpecs.RegisterUserSpec states the whole transition |
| Handlers.AddResource | library/models.py:56-58 | a refused creation changes nothing; an added resource's id was unused and now exists; HandlerSpecs.AddResourceSpec states the whole transition |
| Handlers.CheckoutResource | library/views.py:105-135 | a rejected checkout changes nothing; a successful one adds exactly one checkout; HandlerSpecs.CheckoutResourceSpec states the whole transition |
| Handlers.CloseCheckout | library/views.py:151-171 | closing adds one return record for the checkout and makes it RETURNED; HandlerSpecs.CloseCheckoutSpec states every write |
| Handlers.ReturnResource | library/views.py:139-174 | a rejected return changes nothing; a successful one closes the actor's own ACTIVE checkout; HandlerSpecs.ReturnResourceSpec states the whole transition |
| Handlers.StaffProcessReturn | library/views.py:237-263 | a rejected staff return changes nothing; a successful one closes an ACTIVE checkout; HandlerSpecs.StaffProcessReturnSpec states the whole transition |
| Handlers.ReserveResource | library/views.py:178-209 | a rejected reservation changes nothing; a successful one happens only under the cap; HandlerSpecs.ReserveResourceSpec states the whole transition |
| Handlers.PromoteToStaff | library/views.py:278-287 | a refused promotion changes nothing; after a successful one the target is STAFF; HandlerSpecs.PromoteToStaffSpec states the whole transition |
| Handlers.DeactivateStaff | library/views.py:290-299 | a refused deactivation changes nothing; only a STAFF target is deactivated; HandlerSpecs.DeactivateStaffSpec states the whole transition |
| HandlerSpecs.CreateAccountSpec | library/models.py:7-18 | account creation succeeds iff the id is unused; the new account is active with the chosen role, no other user changes and no other table changes; a refused creation changes nothing |
| HandlerSpecs.RegisterUserSpec | library/models.py:18 | registration succeeds iff the id is unused; the new account is an active PATRON, existing users are unchanged and no other table changes; a refused registration changes nothing |
| HandlerSpecs.AddResourceSpec | library/models.py:56-58 | adding a resource is refused iff its id is used or a set identifier is already carried; otherwise the new row carries the given title, author, type, tags and creation time and starts AVAILABLE, every other resource and every other table is unchanged, and identifiers stay unique; refusal changes nothing |
| HandlerSpecs.CheckoutResourceSpec | library/views.py:105-135 | checkout succeeds iff the actor is a PATRON and the resource exists and is AVAILABLE; rejection changes nothing; success adds exactly one checkout, the fresh ACTIVE row for this patron and resource made at `now` and due now + 14 days, now the resource's only ACTIVE one; makes the resource CHECKED_OUT with its other fields kept, leaves every other resource alone and appends one NEW_RESOURCE notice for the patron |
| HandlerSpecs.CloseCheckoutSpec | library/views.py:151-171 | closing adds exactly one return record, with the fine, which is then the checkout's only one; the checkout becomes RETURNED with its patron, resource and dates kept, and no other checkout changes; the resource becomes AVAILABLE with its other fields kept and no ACTIVE checkout, and no other resource changes; the borrower gets OVERDUE if fine > 0, EVENT otherwise |
| HandlerSpecs.ReturnResourceSpec | library/views.py:139-174 | a return succeeds iff the checkout exists, is the actor's own and is ACTIVE; rejection changes nothing; success makes the closing writes and notifies the returning patron |
| HandlerSpecs.StaffProcessReturnSpec | library/views.py:237-263 | a staff return succeeds iff the actor is STAFF and the checkout exists and is ACTIVE; administrators are refused; no ownership check; on success the store is what the borrower's own return would give, so the notice goes to the borrower |
| HandlerSpecs.ReturnHappensOnce | library/views.py:147-149 | after one successful return, by patron or staff, the next return of the same checkout by anyone at any time is refused, changes nothing, and the checkout has exactly one return record |
| HandlerSpecs.ReserveResourceSpec | library/views.py:183-206 | an unknown user or resource changes nothing; with 10 or more PENDING reservations the user is refused whatever the resource status; otherwise an AVAILABLE resource leaves everything unchanged; otherwise one fresh reservation made at `now` is added, PENDING with no hold window, the resource becomes RESERVED with its other fields kept, no other resource changes, one RES_AVAIL notice is appended, and the user's PENDING count rises by one without passing 10 |
| HandlerSpecs.PromoteToStaffSpec | library/views.py:278-287 | promotion succeeds iff an administrator names an existing user; the target becomes STAFF, with its active flag kept, and no other user changes; refusal changes nothing |
| HandlerSpecs.PromoteToStaffIdempotent | library/views.py:283-285 | promoting the same user twice leaves the same store as promoting once |
| HandlerSpecs.DeactivateStaffSpec | library/views.py:290-299 | deactivation succeeds iff an administrator names an existing STAFF user; only that user's active flag is cleared and the role stays STAFF; any other target changes nothing |
| Traces.Apply | library/urls.py:4-20 | serving any one request keeps a valid store valid |
| Traces.Run | library/urls.py:4-20 | serving any sequence of requests keeps a valid store valid |
| Traces.EveryHistoryLendsEachResourceOnce | library/views.py:105-209 | after any history of requests from an empty library: at most one ACTIVE checkout per resource, none while AVAILABLE, at most one return record per checkout, at most 10 PENDING reservations per user |
| Traces.StaffScenario | library/views.py:105-135 | the fixture that StaffScenarioStore and StaffReturnInSomeHistory serve: four requests that create a staff account, register a patron, add a book and lend it; it models no handler of its own |
| Traces.StaffScenarioStore | library/views.py:105-135 | that history, served from the empty library, reaches a valid store with a STAFF user and one ACTIVE checkout |
| Traces.StaffReturnInSomeHistory | library/views.py:237-263 | in that history the staff return succeeds: the checkout is RETURNED with one return record and the book is AVAILABLE |
| Traces.CloseLeavesReturned | library/views.py:147-158 | closing an ACTIVE checkout leaves every RETURNED checkout as it was, keeps every existing return record with its time and fine, and adds none for a RETURNED checkout |
| Traces.ApplyKeepsReturned | library/views.py:147-149 | no single request changes a RETURNED checkout, any existing return record's time or fine, or which records close that checkout |
| Traces.RunKeepsReturned | library/views.py:147-149 | no sequence of requests changes a RETURNED checkout, any existing return record's time or fine, or which records close that checkout |
| Traces.ReturnHappensOnceInEveryHistory | library/views.py:147-149 | after a successful return and any requests served after it, every further return of the checkout, by patron or staff, is refused and changes nothing, and the checkout has exactly one return record |
| Traces.ReturnSixDaysLate | library/views.py:119-171 | checked out at T and returned at T + 20 days: fine 6, resource AVAILABLE, notices NEW_RESOURCE then OVERDUE to the patron |
| Traces.ReturnOnTime | library/views.py:151-171 | a checkout returned by its due date has fine 0, and the patron gets an EVENT notice |
| Traces.FiveDaysLateCostsFive | library/views.py:43-50 | five days past the due date costs five dollars |
| Traces.ReservationCapEdge | library/views.py:186-192 | with 9 PENDING reservations the tenth is placed; with 10 the eleventh is refused |
| AsWritten.CheckoutNeverSucceedsAsWritten | library/views.py:38-40 | as written, a checkout never changes the store, and it fails with a server error exactly where the intended handler would succeed |
| AsWritten.OnePatronOneBook | library/views.py:119 | one patron, one AVAILABLE book: the intended handler lends it, the handler as written does not |
| AsWritten.CheckoutResourceAsWritten | library/views.py:105-135 | the handler as written never changes the store and never succeeds |
| Library.LibraryDb.constructor | library/models.py:7-161 | a new library has empty tables and is valid |
| Library.LibraryDb.CountPending | library/views.py:186-189 | the scan returns the user's count of PENDING reservations |
| Library.LibraryDb.CreateAccount | library/models.py:7-18 | keeps the object valid; the new state and outcome are those of Handlers.CreateAccount |
| Library.LibraryDb.RegisterUser | library/models.py:18 | keeps the object valid; the new state and outcome are those of Handlers.RegisterUser |
| Library.LibraryDb.AddResource | library/models.py:56-58 | keeps the object valid; the new state and outcome are those of Handlers.AddResource |
| Library.LibraryDb.CheckoutResource | library/views.py:105-135 | keeps the object valid; the new state and outcome are those of Handlers.CheckoutResource |
| Library.LibraryDb.CloseCheckout | library/views.py:151-171 | closing an ACTIVE checkout keeps the object valid; the new state is that of Handlers.CloseCheckout |
| Library.LibraryDb.ReturnResource | library/views.py:139-174 | keeps the object valid; the new state and outcome are those of Handlers.ReturnResource |
| Library.LibraryDb.StaffProcessReturn | library/views.py:238-263 | keeps the object valid; the new state and outcome are those of Handlers.StaffProcessReturn |
| Library.LibraryDb.ReserveResource | library/views.py:178-209 | keeps the object valid; the new state and outcome are those of Handlers.ReserveResource |
| Library.LibraryDb.PromoteToStaff | library/views.py:279-287 | keeps the object valid; the new state and outcome are those of Handlers.PromoteToStaff |
| Library.LibraryDb.DeactivateStaff | library/views.py:291-299 | keeps the object valid; the new state and outcome are those of Handlers.DeactivateStaff |

## Left out

- Rendering, redirects, flash messages and routing. A rejection is an `Outcome` value with the store unchanged.
- The read-only screens (patron dashboard, resource list and search, resource detail, staff dashboard, admin staff list). They change no state.
- The popular-resources report (library/views.py:305-324). It is a database aggregate whose order among ties the database decides, and it appends one report row without changing any table the model holds. The report table is not modelled.
- Authentication. Only the role tests of the guards are modelled, and "signed in" means the id names a user. The handlers never read `is_active`. The authentication backend's refusal of inactive accounts is not part of this model.
- Concurrency, transactions and row locking. Requests are served one at a time.
- Decimal fines and the six-digit limit of the fine column. A fine is a natural number of dollars, so fines above 9999 dollars are not refused.
- Sub-second times. Time is whole seconds.
- Notification text, the read flag and creation time. A notification is its recipient and type.
- Cascade deletes. No handler deletes anything.
- The NOTIFIED, EXPIRED and CANCELLED reservation states and the LOST checkout and resource states. They exist in the datatypes, but no handler sets them.
- Automatic id assignment. Checkout, return, reservation and notification ids are table positions. User and resource ids are chosen by the caller, and an id already in use is refused.
- User names and their uniqueness. Users are identified by id only.
- How STAFF and ADMIN accounts come to exist. No request handler creates them; the role field admits all three roles (library/models.py:7-18), and an administrator sets them outside the handlers. `CreateAccount` stands for that: it makes an active account with any role under an unused id, so histories from the empty library contain staff returns, promotions and deactivations (`Traces.StaffReturnInSomeHistory`).

## Findings

| source | as written | input that shows it | evidently intended | confidence | as-written member | corrected member |
|---|---|---|---|---|---|---|
| library/views.py:38-40 | `timedelta` is used but never imported, so computing the due date raises a name error. The handler calls it after its guards and before its first write, so every checkout that passes the guards fails and lends nothing. | a PATRON checks out an AVAILABLE resource | due date = now + 14 days, and the checkout succeeds | high, not executed | AsWritten.CheckoutNeverSucceedsAsWritten | HandlerSpecs.CheckoutResourceSpec |

=== FILE: findings.dfy ===
/** The checkout handler as its source is written. The due-date helper adds a
    `timedelta` that its module never imports, so every call of it raises a
    name error. The handler calls it after both guards have passed and before
    its first write, so a request that passes the guards ends in a server
    error and changes nothing: no checkout can ever succeed. The rest of the
    model uses Handlers.CheckoutResource, which computes the evidently
    intended due date of fourteen days later. */
module AsWritten {
  import opened Models
  import opened LibraryStore
  import opened Handlers

  /** Checkout as written: the guards, then the failing due-date call. */
  function CheckoutResourceAsWritten(s: Store, actor: UserId, rid: ResourceId, now: Time): (r: Step)
    ensures r.store == s && r.outcome != Ok
  {
    if actor !in s.users then Step(s, Unauthenticated)
    else if !IsPatron(s.users[actor]) then Step(s, Forbidden)
    else if rid !in s.resources then Step(s, NotFound)
    else if s.resources[rid].status != Available then Step(s, NotAvailable)
    else Step(s, ServerError)
  }

  /** As written, no checkout request succeeds or changes the store; where the
      intended handler would lend the resource, this one fails with a server
      error. */
  lemma CheckoutNeverSucceedsAsWritten(s: Store, actor: UserId, rid: ResourceId, now: Time)
    ensures CheckoutResourceAsWritten(s, actor, rid, now).store == s
    ensures CheckoutResource(s, actor, rid, now).outcome == Ok
            <==> CheckoutResourceAsWritten(s, actor, rid, now).outcome == ServerError
  {
  }

  /** A concrete case: one patron and one AVAILABLE book. The intended handler
      lends the book; the handler as written fails and lends nothing. */
  lemma OnePatronOneBook(now: Time)
    ensures var s := Store(map[0 := NewUser()],
                           map[0 := NewResource("Dune", "Herbert", Book, None, None, 0)],
                           [], [], [], []);
            && CheckoutResource(s, 0, 0, now).outcome == Ok
            && |CheckoutResource(s, 0, 0, now).store.checkouts| == 1
            && CheckoutResourceAsWritten(s, 0, 0, now).outcome == ServerError
            && CheckoutResourceAsWritten(s, 0, 0, now).store.checkouts == []
  {
  }
}

=== FILE: handler_specs.dfy ===
/** What each handler promises its caller: when it succeeds, what it writes,
    and that a rejected request writes nothing. */
module HandlerSpecs {
  import opened Models
  import opened Rules
  import opened LibraryStore
  import opened Handlers
  import Invariant

  // ---------- Creating users and resources ----------

  /** Account creation succeeds exactly for an unused id; the new account has
      the chosen role and is active, no other user changes and no other table
      changes. A refused creation changes nothing. */
  lemma CreateAccountSpec(s: Store, uid: UserId, role: Role)
    ensures CreateAccount(s, uid, role).outcome == Ok <==> uid !in s.users
    ensures CreateAccount(s, uid, role).outcome == Ok ==>
              var t := CreateAccount(s, uid, role).store;
              && t.users.Keys == s.users.Keys + {uid}
              && t.users[uid] == User(role, true)
              && (forall u | u in s.users :: t.users[u] == s.users[u])
              && t == s.(users := t.users)
    ensures CreateAccount(s, uid, role).outcome != Ok ==> CreateAccount(s, uid, role).store == s
  {
  }

  /** Registration succeeds exactly for an unused id, and the new account is
      an active PATRON; no other table changes. */
  lemma RegisterUserSpec(s: Store, uid: UserId)
    ensures RegisterUser(s, uid).outcome == Ok <==> uid !in s.users
    ensures RegisterUser(s, uid).outcome == Ok ==>
              var t := RegisterUser(s, uid).store;
              && uid in t.users && IsPatron(t.users[uid]) && t.users[uid].isActive
              && t.users.Keys == s.users.Keys + {uid}
              && (forall u | u in s.users :: t.users[u] == s.users[u])
              && t == s.(users := t.users)
    ensures RegisterUser(s, uid).outcome != Ok ==> RegisterUser(s, uid).store == s
  {
  }

  /** Adding a resource is refused exactly when its id is used or one of its
      set identifiers is already carried by another resource. An added
      resource carries the given fields and starts AVAILABLE; every other
      resource and every other table is unchanged, and in a valid store the
      identifiers stay unique. */
  lemma AddResourceSpec(s: Store, rid: ResourceId, title: string, author: string, kind: ResourceType,
                        rfidTag: Option<string>, barcode: Option<string>, now: Time)
    requires Valid(s)
    ensures var r := AddResource(s, rid, title, author, kind, rfidTag, barcode, now);
            && (r.outcome == Ok <==>
                  rid !in s.resources
                  && (forall q | q in s.resources ::
                        (rfidTag.Some? ==> s.resources[q].rfidTag != rfidTag)
                        && (barcode.Some? ==> s.resources[q].barcode != barcode)))
            && (r.outcome != Ok ==> r.store == s)
            && (r.outcome == Ok ==>
                  && r.store.resources.Keys == s.resources.Keys + {rid}
                  && r.store.resources[rid].status == Available
                  && r.store.resources[rid].title == title && r.store.resources[rid].author == author
                  && r.store.resources[rid].kind == kind && r.store.resources[rid].createdAt == now
                  && r.store.resources[rid].rfidTag == rfidTag && r.store.resources[rid].barcode == barcode
                  && (forall q | q in s.resources :: r.store.resources[q] == s.resources[q])
                  && TagsUnique(r.store.resources)
                  && r.store == s.(resources := r.store.resources))
  {
    Invariant.AddResourcePreservesValid(s, rid, title, author, kind, rfidTag, barcode, now);
  }

  // ---------- Checkout ----------

  /** A checkout succeeds exactly when the actor is a PATRON and the resource
      exists and is AVAILABLE. A rejected checkout changes nothing. A
      successful one adds exactly one ACTIVE checkout, due fourteen days later,
      which is then the resource's only ACTIVE checkout; the resource becomes
      CHECKED_OUT and the patron gets one NEW_RESOURCE notification. */
  lemma CheckoutResourceSpec(s: Store, actor: UserId, rid: ResourceId, now: Time)
    requires Valid(s)
    ensures var r := CheckoutResource(s, actor, rid, now);
            && (r.outcome == Ok <==>
                  actor in s.users && IsPatron(s.users[actor])
                  && rid in s.resources && s.resources[rid].status == Available)
            && (r.outcome != Ok ==> r.store == s)
    ensures var r := CheckoutResource(s, actor, rid, now);
            r.outcome == Ok ==>
              var t := r.store;
              var n := |s.checkouts|;
              && |t.checkouts| == n + 1 && t.checkouts[..n] == s.checkouts
              && t.checkouts[n] == NewCheckout(actor, rid, now, now + 14 * 86400)
              && t.checkouts[n].status == Active
              && ActiveCheckouts(t, rid) == {n}
              && t.resources.Keys == s.resources.Keys
              && t.resources[rid] == s.resources[rid].(status := CheckedOut)
              && (forall q | q in s.resources && q != rid :: t.resources[q] == s.resources[q])
              && t.notifications == s.notifications + [Notification(actor, NewResourceNotice)]
              && t.users == s.users && t.returnRecords == s.returnRecords && t.reservations == s.reservations
  {
    var r := CheckoutResource(s, actor, rid, now);
    if r.outcome == Ok {
      var t := r.store;
      var n := |s.checkouts|;
      assert forall i | 0 <= i < n :: t.checkouts[i] == s.checkouts[i];
      assert ActiveCheckouts(t, rid) == {n};
    }
  }

  // ---------- Returns ----------

  /** What closing an ACTIVE checkout writes, in a valid store: exactly one new
      return record, carrying the fine, which is then the checkout's only one;
      the checkout becomes RETURNED and nothing else in the checkout table
      changes; its resource becomes AVAILABLE with no ACTIVE checkout left; and
      the borrower gets one notification, OVERDUE when a fine is due and EVENT
      otherwise. */
  lemma CloseCheckoutSpec(s: Store, cid: CheckoutId, now: Time)
    requires Valid(s)
    requires cid < |s.checkouts| && s.checkouts[cid].status == Active
    ensures var c := s.checkouts[cid];
            var fine := OverdueFine(c, now);
            var t := CloseCheckout(s, cid, now);
            && t.returnRecords == s.returnRecords + [ReturnRecord(cid, now, fine)]
            && ReturnsFor(t, cid) == {|s.returnRecords|}
            && t.checkouts == s.checkouts[cid := c.(status := Returned)]
            && t.resources.Keys == s.resources.Keys
            && t.resources[c.resource] == s.resources[c.resource].(status := Available)
            && (forall q | q in s.resources && q != c.resource :: t.resources[q] == s.resources[q])
            && ActiveCheckouts(t, c.resource) == {}
            && t.notifications == s.notifications + [Notification(c.patron, if fine > 0 then Overdue else Event)]
            && t.users == s.users && t.reservations == s.reservations
  {
    var c := s.checkouts[cid];
    var t := CloseCheckout(s, cid, now);
    var m := |s.returnRecords|;
    assert forall k | 0 <= k < m :: t.returnRecords[k] == s.returnRecords[k];
    assert ReturnsFor(t, cid) == {m};
    forall i | 0 <= i < |s.checkouts| && i != cid && s.checkouts[i].status == Active
      ensures s.checkouts[i].resource != c.resource
    {
      if i < cid {
        assert s.checkouts[i].resource != s.checkouts[cid].resource;
      } else {
        assert s.checkouts[cid].resource != s.checkouts[i].resource;
      }
    }
    assert ActiveCheckouts(t, c.resource) == {};
  }

  /** A user's return succeeds exactly when the checkout exists, belongs to
      that user and is ACTIVE; a rejected return changes nothing, and a
      successful one makes the writes of CloseCheckoutSpec, notifying the
      returning user. */
  lemma ReturnResourceSpec(s: Store, actor: UserId, cid: CheckoutId, now: Time)
    requires Valid(s)
    ensures var r := ReturnResource(s, actor, cid, now);
            && (r.outcome == Ok <==>
                  actor in s.users && cid < |s.checkouts|
                  && s.checkouts[cid].patron == actor && s.checkouts[cid].status == Active)
            && (r.outcome != Ok ==> r.store == s)
            && (r.outcome == Ok ==>
                  var fine := OverdueFine(s.checkouts[cid], now);
                  && r.store == CloseCheckout(s, cid, now)
                  && r.store.returnRecords == s.returnRecords + [ReturnRecord(cid, now, fine)]
                  && r.store.checkouts[cid].status == Returned
                  && r.store.resources[s.checkouts[cid].resource].status == Available
                  && r.store.notifications
                       == s.notifications + [Notification(actor, if fine > 0 then Overdue else Event)])
  {
    if ReturnResource(s, actor, cid, now).outcome == Ok {
      CloseCheckoutSpec(s, cid, now);
    }
  }

  /** Staff may return any ACTIVE checkout: the request succeeds exactly when
      the actor is STAFF (an administrator is refused) and the checkout exists
      and is ACTIVE. A successful staff return writes exactly what the
      borrower's own return would have written, so the notification goes to
      the borrower. */
  lemma StaffProcessReturnSpec(s: Store, actor: UserId, cid: CheckoutId, now: Time)
    requires Valid(s)
    ensures var r := StaffProcessReturn(s, actor, cid, now);
            && (r.outcome == Ok <==>
                  actor in s.users && IsStaffUser(s.users[actor])
                  && cid < |s.checkouts| && s.checkouts[cid].status == Active)
            && (actor in s.users && IsAdminUser(s.users[actor]) ==> r.outcome == Forbidden)
            && (r.outcome != Ok ==> r.store == s)
            && (r.outcome == Ok ==>
                  var borrower := s.checkouts[cid].patron;
                  var own := ReturnResource(s, borrower, cid, now);
                  own.outcome == Ok && r.store == own.store)
  {
    var r := StaffProcessReturn(s, actor, cid, now);
    if actor in s.users && IsAdminUser(s.users[actor]) {
      GuardsAreExclusive(s.users[actor]);
    }
  }

  /** A checkout is returned at most once: after one successful return, by the
      borrower or by staff, every further return of it, by anyone and at any
      time, is refused and adds no second return record. */
  lemma ReturnHappensOnce(s: Store, byStaff: bool, actor: UserId, cid: CheckoutId, now: Time,
                          actor2: UserId, later: Time)
    requires Valid(s)
    requires var r := if byStaff then StaffProcessReturn(s, actor, cid, now) else ReturnResource(s, actor, cid, now);
             r.outcome == Ok
    ensures var t := (if byStaff then StaffProcessReturn(s, actor, cid, now) else ReturnResource(s, actor, cid, now)).store;
            Valid(t)
            && ReturnResource(t, actor2, cid, later).outcome != Ok
            && ReturnResource(t, actor2, cid, later).store == t
            && StaffProcessReturn(t, actor2, cid, later).outcome != Ok
            && StaffProcessReturn(t, actor2, cid, later).store == t
            && |ReturnsFor(t, cid)| == 1
  {
    CloseCheckoutPreservesValidAndSpec(s, cid, now);
  }

  lemma CloseCheckoutPreservesValidAndSpec(s: Store, cid: CheckoutId, now: Time)
    requires Valid(s)
    requires cid < |s.checkouts| && s.checkouts[cid].status == Active
    ensures Valid(CloseCheckout(s, cid, now))
    ensures CloseCheckout(s, cid, now).checkouts[cid].status == Returned
    ensures ReturnsFor(CloseCheckout(s, cid, now), cid) == {|s.returnRecords|}
  {
    Invariant.CloseCheckoutPreservesValid(s, cid, now);
    CloseCheckoutSpec(s, cid, now);
  }

  // ---------- Reservations ----------

  /** The reservation guards apply in a fixed order: signed in, resource found,
      cap, availability. A user who already holds
      the maximum of PENDING reservations is refused whatever the resource's
      status; otherwise an AVAILABLE resource is not reserved and nothing
      changes; otherwise exactly one PENDING reservation is added, the
      resource becomes RESERVED, the user gets one RES_AVAIL notification, and
      the user's PENDING count goes up by one without passing the cap. */
  lemma ReserveResourceSpec(s: Store, actor: UserId, rid: ResourceId, now: Time)
    requires Valid(s)
    ensures var r := ReserveResource(s, actor, rid, now);
            && (actor !in s.users ==> r.outcome == Unauthenticated && r.store == s)
            && (actor in s.users && rid !in s.resources ==> r.outcome == NotFound && r.store == s)
    ensures actor in s.users && rid in s.resources ==>
            var r := ReserveResource(s, actor, rid, now);
            && (PendingCount(s.reservations, actor) >= MaxActiveReservationsPerPatron ==>
                  r.outcome == LimitReached && r.store == s)
            && (PendingCount(s.reservations, actor) < MaxActiveReservationsPerPatron
                && s.resources[rid].status == Available ==>
                  r.outcome == AlreadyAvailable && r.store == s)
            && (PendingCount(s.reservations, actor) < MaxActiveReservationsPerPatron
                && s.resources[rid].status != Available ==>
                  && r.outcome == Ok
                  && |r.store.reservations| == |s.reservations| + 1
                  && r.store.reservations[..|s.reservations|] == s.reservations
                  && r.store.reservations[|s.reservations|] == NewReservation(actor, rid, now)
                  && r.store.reservations[|s.reservations|].status == Pending
                  && r.store.reservations[|s.reservations|].holdUntil == None
                  && PendingCount(r.store.reservations, actor) == PendingCount(s.reservations, actor) + 1
                  && PendingCount(r.store.reservations, actor) <= MaxActiveReservationsPerPatron
                  && r.store.resources.Keys == s.resources.Keys
                  && r.store.resources[rid] == s.resources[rid].(status := Reserved)
                  && (forall q | q in s.resources && q != rid :: r.store.resources[q] == s.resources[q])
                  && r.store.notifications == s.notifications + [Notification(actor, ReservationAvailable)]
                  && r.store.checkouts == s.checkouts && r.store.returnRecords == s.returnRecords
                  && r.store.users == s.users)
  {
    var r := ReserveResource(s, actor, rid, now);
    if r.outcome == Ok {
      PendingCountAppend(s.reservations, NewReservation(actor, rid, now), actor);
      assert r.store.reservations[..|s.reservations|] == s.reservations;
    }
  }

  // ---------- Staff administration ----------

  /** Promotion succeeds exactly when an administrator names an existing user;
      the user then has the STAFF role and every other user is unchanged. A
      refused promotion changes nothing. */
  lemma PromoteToStaffSpec(s: Store, actor: UserId, target: UserId)
    ensures var r := PromoteToStaff(s, actor, target);
            && (r.outcome == Ok <==> actor in s.users && IsAdminUser(s.users[actor]) && target in s.users)
            && (r.outcome != Ok ==> r.store == s)
            && (r.outcome == Ok ==>
                  && r.store.users.Keys == s.users.Keys
                  && IsStaffUser(r.store.users[target])
                  && r.store.users[target].isActive == s.users[target].isActive
                  && (forall u | u in s.users && u != target :: r.store.users[u] == s.users[u])
                  && r.store == s.(users := r.store.users))
  {
  }

  /** Promoting the same user twice leaves the store as promoting once does.
      (When an administrator promotes their own account, the second request is
      refused, since they are no longer an administrator; the store is the same
      either way.) */
  lemma PromoteToStaffIdempotent(s: Store, actor: UserId, target: UserId)
    ensures var once := PromoteToStaff(s, actor, target).store;
            PromoteToStaff(once, actor, target).store == once
  {
    var once := PromoteToStaff(s, actor, target);
    if once.outcome == Ok {
      var twice := PromoteToStaff(once.store, actor, target);
      if twice.outcome == Ok {
        assert once.store.users[target].(role := Staff) == once.store.users[target];
      }
    }
  }

  /** Deactivation succeeds exactly when an administrator names an existing
      STAFF user, and then only that user's active flag is cleared; for any
      other target, including a patron or an administrator, nothing changes. */
  lemma DeactivateStaffSpec(s: Store, actor: UserId, target: UserId)
    ensures var r := DeactivateStaff(s, actor, target);
            && (r.outcome == Ok <==>
                  actor in s.users && IsAdminUser(s.users[actor])
                  && target in s.users && IsStaffUser(s.users[target]))
            && (r.outcome != Ok ==> r.store == s)
            && (r.outcome == Ok ==>
                  && r.store.users.Keys == s.users.Keys
                  && !r.store.users[target].isActive
                  && r.store.users[target].role == Staff
                  && (forall u | u in s.users && u != target :: r.store.users[u] == s.users[u])
                  && r.store == s.(users := r.store.users))
  {
  }
}

=== FILE: handlers.dfy ===
/** The request handlers as transitions of the store. Each handler checks its
    guards in the source's order; a failed guard returns the store unchanged
    with the reason, and a passed one makes all of the handler's writes. The
    acting user is the signed-in user's id; an id that names no user stands
    for a request without a signed-in user. */
module Handlers {
  import opened Models
  import opened Rules
  import opened LibraryStore

  datatype Outcome =
    | Ok
    | Unauthenticated   // no signed-in user: sent to the login page
    | Forbidden         // the user's role does not pass the handler's guard
    | NotFound          // the looked-up row does not exist or does not match
    | NotAvailable      // checkout of a resource that is not AVAILABLE
    | NotActive         // return of a checkout that is not ACTIVE
    | LimitReached      // the patron already holds the maximum of PENDING reservations
    | AlreadyAvailable  // reservation of an AVAILABLE resource: check it out instead
    | Duplicate         // a primary key or unique identifier is already taken
    | ServerError       // an unhandled exception ends the request before any write

  datatype Step = Step(store: Store, outcome: Outcome)

  // ---------- Creating users and resources ----------

  /** Creation of an account with a chosen role under an unused id, as an
      administrator does outside the request handlers; the account is active. */
  function CreateAccount(s: Store, uid: UserId, role: Role): (r: Step)
    ensures r.outcome != Ok ==> r.store == s
    ensures r.outcome == Ok ==> uid in r.store.users && r.store.users[uid].role == role
  {
    if uid in s.users then Step(s, Duplicate)
    else Step(s.(users := s.users[uid := NewUser().(role := role)]), Ok)
  }

  /** Registration: a new account under an unused id, with the default role. */
  function RegisterUser(s: Store, uid: UserId): (r: Step)
    ensures r.outcome != Ok ==> r.store == s
    ensures r.outcome == Ok ==> uid in r.store.users && IsPatron(r.store.users[uid])
  {
    CreateAccount(s, uid, Patron)
  }

  /** True when one of the identifiers that is set is already carried by some
      resource. */
  predicate TagTaken(resources: map<ResourceId, Resource>, rfidTag: Option<string>, barcode: Option<string>)
  {
    exists r | r in resources ::
      (rfidTag.Some? && resources[r].rfidTag == rfidTag) || (barcode.Some? && resources[r].barcode == barcode)
  }

  /** Creation of a resource under an unused id; the unique constraints on the
      RFID tag and the barcode refuse an identifier that is already taken. */
  function AddResource(s: Store, rid: ResourceId, title: string, author: string, kind: ResourceType,
                       rfidTag: Option<string>, barcode: Option<string>, now: Time): (r: Step)
    ensures r.outcome != Ok ==> r.store == s
    ensures r.outcome == Ok ==> rid !in s.resources && rid in r.store.resources
  {
    if rid in s.resources || TagTaken(s.resources, rfidTag, barcode) then Step(s, Duplicate)
    else Step(s.(resources := s.resources[rid := NewResource(title, author, kind, rfidTag, barcode, now)]), Ok)
  }

  // ---------- Lending ----------

  /** A patron checks out a resource. */
  function CheckoutResource(s: Store, actor: UserId, rid: ResourceId, now: Time): (r: Step)
    ensures r.outcome != Ok ==> r.store == s
    ensures r.outcome == Ok ==> |r.store.checkouts| == |s.checkouts| + 1
  {
    if actor !in s.users then Step(s, Unauthenticated)
    else if !IsPatron(s.users[actor]) then Step(s, Forbidden)
    else if rid !in s.resources then Step(s, NotFound)
    else if s.resources[rid].status != Available then Step(s, NotAvailable)
    else
      Step(s.(checkouts := s.checkouts + [NewCheckout(actor, rid, now, DueDate(now))],
              resources := s.resources[rid := s.resources[rid].(status := CheckedOut)],
              notifications := s.notifications + [Notification(actor, NewResourceNotice)]),
           Ok)
  }

  /** The writes shared by both kinds of return: record the fine, close the
      checkout, make the resource AVAILABLE and tell the borrower. */
  function CloseCheckout(s: Store, cid: CheckoutId, now: Time): (t: Store)
    requires cid < |s.checkouts| && s.checkouts[cid].resource in s.resources
    ensures |t.returnRecords| == |s.returnRecords| + 1 && t.returnRecords[|s.returnRecords|].checkout == cid
    ensures |t.checkouts| == |s.checkouts| && t.checkouts[cid].status == Returned
  {
    var c := s.checkouts[cid];
    var fine := OverdueFine(c, now);
    s.(returnRecords := s.returnRecords + [ReturnRecord(cid, now, fine)],
       checkouts := s.checkouts[cid := c.(status := Returned)],
       resources := s.resources[c.resource := s.resources[c.resource].(status := Available)],
       notifications := s.notifications + [Notification(c.patron, if fine > 0 then Overdue else Event)])
  }

  /** A user returns one of their own checkouts. No role is required; a
      checkout of someone else is not found. */
  function ReturnResource(s: Store, actor: UserId, cid: CheckoutId, now: Time): (r: Step)
    requires ReferencesResolve(s)
    ensures r.outcome != Ok ==> r.store == s
    ensures r.outcome == Ok ==>
              cid < |s.checkouts| && s.checkouts[cid].patron == actor && s.checkouts[cid].status == Active
  {
    if actor !in s.users then Step(s, Unauthenticated)
    else if cid >= |s.checkouts| || s.checkouts[cid].patron != actor then Step(s, NotFound)
    else if s.checkouts[cid].status != Active then Step(s, NotActive)
    else Step(CloseCheckout(s, cid, now), Ok)
  }

  /** A staff member processes the return of any checkout. */
  function StaffProcessReturn(s: Store, actor: UserId, cid: CheckoutId, now: Time): (r: Step)
    requires ReferencesResolve(s)
    ensures r.outcome != Ok ==> r.store == s
    ensures r.outcome == Ok ==> cid < |s.checkouts| && s.checkouts[cid].status == Active
  {
    if actor !in s.users then Step(s, Unauthenticated)
    else if !StaffRequired(s.users[actor]) then Step(s, Forbidden)
    else if cid >= |s.checkouts| then Step(s, NotFound)
    else if s.checkouts[cid].status != Active then Step(s, NotActive)
    else Step(CloseCheckout(s, cid, now), Ok)
  }

  // ---------- Reservations ----------

  /** A user reserves a resource. The resource is looked up first, then the
      cap is checked, then availability. */
  function ReserveResource(s: Store, actor: UserId, rid: ResourceId, now: Time): (r: Step)
    ensures r.outcome != Ok ==> r.store == s
    ensures r.outcome == Ok ==> PendingCount(s.reservations, actor) < MaxActiveReservationsPerPatron
  {
    if actor !in s.users then Step(s, Unauthenticated)
    else if rid !in s.resources then Step(s, NotFound)
    else if PendingCount(s.reservations, actor) >= MaxActiveReservationsPerPatron then Step(s, LimitReached)
    else if s.resources[rid].status == Available then Step(s, AlreadyAvailable)
    else
      Step(s.(reservations := s.reservations + [NewReservation(actor, rid, now)],
              resources := s.resources[rid := s.resources[rid].(status := Reserved)],
              notifications := s.notifications + [Notification(actor, ReservationAvailable)]),
           Ok)
  }

  // ---------- Staff administration ----------

  /** An administrator gives a user the STAFF role. */
  function PromoteToStaff(s: Store, actor: UserId, target: UserId): (r: Step)
    ensures r.outcome != Ok ==> r.store == s
    ensures r.outcome == Ok ==> target in r.store.users && IsStaffUser(r.store.users[target])
  {
    if actor !in s.users then Step(s, Unauthenticated)
    else if !AdminRequired(s.users[actor]) then Step(s, Forbidden)
    else if target !in s.users then Step(s, NotFound)
    else Step(s.(users := s.users[target := s.users[target].(role := Staff)]), Ok)
  }

  /** An administrator deactivates a staff account; only a user whose role is
      STAFF is found. */
  function DeactivateStaff(s: Store, actor: UserId, target: UserId): (r: Step)
    ensures r.outcome != Ok ==> r.store == s
    ensures r.outcome == Ok ==> target in s.users && IsStaffUser(s.users[target])
  {
    if actor !in s.users then Step(s, Unauthenticated)
    else if !AdminRequired(s.users[actor]) then Step(s, Forbidden)
    else if target !in s.users || !IsStaffUser(s.users[target]) then Step(s, NotFound)
    else Step(s.(users := s.users[target := s.users[target].(isActive := false)]), Ok)
  }
}

=== FILE: invariant.dfy ===
/** Every handler keeps the store valid: the foreign keys resolve, the
    identifiers stay unique, each checkout has at most one return record,
    each resource has at most one ACTIVE checkout and none while it is
    AVAILABLE, and no patron exceeds the reservation cap. */
module Invariant {
  import opened Models
  import opened Rules
  import opened LibraryStore
  import opened Handlers

  lemma CreateAccountPreservesValid(s: Store, uid: UserId, role: Role)
    requires Valid(s)
    ensures Valid(CreateAccount(s, uid, role).store)
  {
  }

  lemma RegisterUserPreservesValid(s: Store, uid: UserId)
    requires Valid(s)
    ensures Valid(RegisterUser(s, uid).store)
  {
  }

  lemma AddResourcePreservesValid(s: Store, rid: ResourceId, title: string, author: string, kind: ResourceType,
                                  rfidTag: Option<string>, barcode: Option<string>, now: Time)
    requires Valid(s)
    ensures Valid(AddResource(s, rid, title, author, kind, rfidTag, barcode, now).store)
  {
    var r := AddResource(s, rid, title, author, kind, rfidTag, barcode, now);
    if r.outcome == Ok {
      var t := r.store.resources;
      forall a, b | a in t && b in t && a != b
        ensures t[a].rfidTag.Some? ==> t[a].rfidTag != t[b].rfidTag
        ensures t[a].barcode.Some? ==> t[a].barcode != t[b].barcode
      {
        if a == rid {
          assert b in s.resources;
        } else if b == rid {
          assert a in s.resources;
        }
      }
    }
  }

  lemma CheckoutResourcePreservesValid(s: Store, actor: UserId, rid: ResourceId, now: Time)
    requires Valid(s)
    ensures Valid(CheckoutResource(s, actor, rid, now).store)
  {
    var r := CheckoutResource(s, actor, rid, now);
    if r.outcome == Ok {
      var t := r.store;
      var n := |s.checkouts|;
      forall i, j | 0 <= i < j < |t.checkouts| && t.checkouts[i].status == Active && t.checkouts[j].status == Active
        ensures t.checkouts[i].resource != t.checkouts[j].resource
      {
        if j == n {
          assert t.checkouts[i] == s.checkouts[i];
        }
      }
      forall i | 0 <= i < |t.checkouts| && t.checkouts[i].status == Active
        ensures t.checkouts[i].resource in t.resources && t.resources[t.checkouts[i].resource].status != Available
      {
        if i < n {
          assert t.checkouts[i] == s.checkouts[i];
        }
      }
      assert ReturnsCloseCheckouts(t) by {
        forall k | 0 <= k < |t.returnRecords|
          ensures t.returnRecords[k].checkout < |t.checkouts| && t.checkouts[t.returnRecords[k].checkout].status == Returned
        {
          assert t.checkouts[s.returnRecords[k].checkout] == s.checkouts[s.returnRecords[k].checkout];
        }
      }
    }
  }

  /** Closing an ACTIVE checkout keeps the store valid. */
  lemma CloseCheckoutPreservesValid(s: Store, cid: CheckoutId, now: Time)
    requires Valid(s)
    requires cid < |s.checkouts| && s.checkouts[cid].status == Active
    ensures Valid(CloseCheckout(s, cid, now))
  {
    var t := CloseCheckout(s, cid, now);
    var rid := s.checkouts[cid].resource;
    var m := |s.returnRecords|;
    forall k | 0 <= k < |t.returnRecords|
      ensures t.returnRecords[k].checkout < |t.checkouts| && t.checkouts[t.returnRecords[k].checkout].status == Returned
    {
      if k < m {
        assert t.returnRecords[k] == s.returnRecords[k];
      }
    }
    forall i, j | 0 <= i < j < |t.returnRecords|
      ensures t.returnRecords[i].checkout != t.returnRecords[j].checkout
    {
      if j == m {
        assert t.returnRecords[i] == s.returnRecords[i];
      } else {
        assert t.returnRecords[i] == s.returnRecords[i] && t.returnRecords[j] == s.returnRecords[j];
      }
    }
    forall i | 0 <= i < |t.checkouts| && t.checkouts[i].status == Active
      ensures t.checkouts[i].resource in t.resources && t.resources[t.checkouts[i].resource].status != Available
    {
      assert i != cid;
      if cid < i {
        assert s.checkouts[cid].resource != s.checkouts[i].resource;
      } else {
        assert s.checkouts[i].resource != s.checkouts[cid].resource;
      }
    }
  }

  lemma ReturnResourcePreservesValid(s: Store, actor: UserId, cid: CheckoutId, now: Time)
    requires Valid(s)
    ensures Valid(ReturnResource(s, actor, cid, now).store)
  {
    if ReturnResource(s, actor, cid, now).outcome == Ok {
      CloseCheckoutPreservesValid(s, cid, now);
    }
  }

  lemma StaffProcessReturnPreservesValid(s: Store, actor: UserId, cid: CheckoutId, now: Time)
    requires Valid(s)
    ensures Valid(StaffProcessReturn(s, actor, cid, now).store)
  {
    if StaffProcessReturn(s, actor, cid, now).outcome == Ok {
      CloseCheckoutPreservesValid(s, cid, now);
    }
  }

  lemma ReserveResourcePreservesValid(s: Store, actor: UserId, rid: ResourceId, now: Time)
    requires Valid(s)
    ensures Valid(ReserveResource(s, actor, rid, now).store)
  {
    var r := ReserveResource(s, actor, rid, now);
    if r.outcome == Ok {
      var t := r.store;
      forall p ensures PendingCount(t.reservations, p) <= MaxActiveReservationsPerPatron {
        PendingCountAppend(s.reservations, NewReservation(actor, rid, now), p);
      }
      assert ReferencesResolve(t) by {
        forall k | 0 <= k < |t.reservations|
          ensures t.reservations[k].patron in t.users && t.reservations[k].resource in t.resources
        {
          if k < |s.reservations| {
            assert t.reservations[k] == s.reservations[k];
          }
        }
      }
    }
  }

  lemma PromoteToStaffPreservesValid(s: Store, actor: UserId, target: UserId)
    requires Valid(s)
    ensures Valid(PromoteToStaff(s, actor, target).store)
  {
  }

  lemma DeactivateStaffPreservesValid(s: Store, actor: UserId, target: UserId)
    requires Valid(s)
    ensures Valid(DeactivateStaff(s, actor, target).store)
  {
  }
}

=== FILE: library.dfy ===
/** The library's tables as the fields of one object, and the request handlers
    as methods that update them step by step: check the guards in order,
    return early on the first that fails, then create rows and save the
    changed ones. Each method ends in exactly the state that the matching
    transition in Handlers gives, so everything proved there about the
    transitions holds of the object. */
module Library {
  import opened Models
  import opened Rules
  import opened LibraryStore
  import Handlers
  import Invariant

  class LibraryDb {
    var users: map<UserId, User>
    var resources: map<ResourceId, Resource>
    var checkouts: seq<Checkout>
    var returnRecords: seq<ReturnRecord>
    var reservations: seq<Reservation>
    var notifications: seq<Notification>

    /** The contents of all tables as one value. */
    function Snapshot(): (s: Store)
      reads this
    {
      Store(users, resources, checkouts, returnRecords, reservations, notifications)
    }

    ghost predicate Valid()
      reads this
    {
      LibraryStore.Valid(Snapshot())
    }

    constructor ()
      ensures Valid() && Snapshot() == EmptyStore()
    {
      users, resources := map[], map[];
      checkouts, returnRecords, reservations, notifications := [], [], [], [];
    }

    /** The number of PENDING reservations `patron` holds, counted by a scan of
        the reservation table. */
    method CountPending(patron: UserId) returns (n: nat)
      ensures n == PendingCount(reservations, patron)
      ensures n <= |reservations|
    {
      n := 0;
      var i := 0;
      while i < |reservations|
        invariant 0 <= i <= |reservations|
        invariant n == PendingCount(reservations[..i], patron)
      {
        assert reservations[..i + 1][..i] == reservations[..i];
        if reservations[i].patron == patron && reservations[i].status == Pending {
          n := n + 1;
        }
        i := i + 1;
      }
      assert reservations[..i] == reservations;
    }

    /** Creation of an account with role `role` under `uid`. */
    method CreateAccount(uid: UserId, role: Role) returns (outcome: Handlers.Outcome)
      requires Valid()
      modifies this
      ensures Valid()
      ensures Snapshot() == Handlers.CreateAccount(old(Snapshot()), uid, role).store
      ensures outcome == Handlers.CreateAccount(old(Snapshot()), uid, role).outcome
    {
      if uid in users {
        return Handlers.Duplicate;
      }
      users := users[uid := NewUser().(role := role)];
      outcome := Handlers.Ok;
      Invariant.CreateAccountPreservesValid(old(Snapshot()), uid, role);
    }

    /** Registration of a new account under `uid`. */
    method RegisterUser(uid: UserId) returns (outcome: Handlers.Outcome)
      requires Valid()
      modifies this
      ensures Valid()
      ensures Snapshot() == Handlers.RegisterUser(old(Snapshot()), uid).store
      ensures outcome == Handlers.RegisterUser(old(Snapshot()), uid).outcome
    {
      if uid in users {
        return Handlers.Duplicate;
      }
      users := users[uid := NewUser()];
      outcome := Handlers.Ok;
      Invariant.RegisterUserPreservesValid(old(Snapshot()), uid);
    }

    /** Creation of a resource, refused when its id or one of its identifiers
        is taken. */
    method AddResource(rid: ResourceId, title: string, author: string, kind: ResourceType,
                       rfidTag: Option<string>, barcode: Option<string>, now: Time)
      returns (outcome: Handlers.Outcome)
      requires Valid()
      modifies this
      ensures Valid()
      ensures Snapshot() == Handlers.AddResource(old(Snapshot()), rid, title, author, kind, rfidTag, barcode, now).store
      ensures outcome == Handlers.AddResource(old(Snapshot()), rid, title, author, kind, rfidTag, barcode, now).outcome
    {
      if rid in resources || Handlers.TagTaken(resources, rfidTag, barcode) {
        return Handlers.Duplicate;
      }
      resources := resources[rid := NewResource(title, author, kind, rfidTag, barcode, now)];
      outcome := Handlers.Ok;
      Invariant.AddResourcePreservesValid(old(Snapshot()), rid, title, author, kind, rfidTag, barcode, now);
    }

    /** A patron checks out resource `rid` at time `now`. */
    method CheckoutResource(actor: UserId, rid: ResourceId, now: Time) returns (outcome: Handlers.Outcome)
      requires Valid()
      modifies this
      ensures Valid()
      ensures Snapshot() == Handlers.CheckoutResource(old(Snapshot()), actor, rid, now).store
      ensures outcome == Handlers.CheckoutResource(old(Snapshot()), actor, rid, now).outcome
    {
      if actor !in users {
        return Handlers.Unauthenticated;
      }
      if !IsPatron(users[actor]) {
        return Handlers.Forbidden;
      }
      if rid !in resources {
        return Handlers.NotFound;
      }
      var resource := resources[rid];
      if resource.status != Available {
        return Handlers.NotAvailable;
      }
      var due := DueDate(now);
      checkouts := checkouts + [NewCheckout(actor, rid, now, due)];
      resources := resources[rid := resource.(status := CheckedOut)];
      notifications := notifications + [Notification(actor, NewResourceNotice)];
      outcome := Handlers.Ok;
      Invariant.CheckoutResourcePreservesValid(old(Snapshot()), actor, rid, now);
    }

    /** The writes of a return: the return record with its fine, the checkout
        closed, the resource AVAILABLE again, and one notification to the
        borrower. Only an ACTIVE checkout is closed, so the object stays valid. */
    method CloseCheckout(cid: CheckoutId, now: Time)
      requires Valid()
      requires cid < |checkouts| && checkouts[cid].status == Active
      modifies this
      ensures Valid()
      ensures Snapshot() == Handlers.CloseCheckout(old(Snapshot()), cid, now)
    {
      var checkout := checkouts[cid];
      var fine := OverdueFine(checkout, now);
      returnRecords := returnRecords + [ReturnRecord(cid, now, fine)];
      checkouts := checkouts[cid := checkout.(status := Returned)];
      var resource := resources[checkout.resource];
      resources := resources[checkout.resource := resource.(status := Available)];
      var kind := if fine > 0 then Overdue else Event;
      notifications := notifications + [Notification(checkout.patron, kind)];
      Invariant.CloseCheckoutPreservesValid(old(Snapshot()), cid, now);
    }

    /** A user returns their own checkout `cid` at time `now`. */
    method ReturnResource(actor: UserId, cid: CheckoutId, now: Time) returns (outcome: Handlers.Outcome)
      requires Valid()
      modifies this
      ensures Valid()
      ensures Snapshot() == Handlers.ReturnResource(old(Snapshot()), actor, cid, now).store
      ensures outcome == Handlers.ReturnResource(old(Snapshot()), actor, cid, now).outcome
    {
      if actor !in users {
        return Handlers.Unauthenticated;
      }
      if cid >= |checkouts| || checkouts[cid].patron != actor {
        return Handlers.NotFound;
      }
      if checkouts[cid].status != Active {
        return Handlers.NotActive;
      }
      CloseCheckout(cid, now);
      outcome := Handlers.Ok;
      Invariant.ReturnResourcePreservesValid(old(Snapshot()), actor, cid, now);
    }

    /** A staff member processes the return of checkout `cid` at time `now`. */
    method StaffProcessReturn(actor: UserId, cid: CheckoutId, now: Time) returns (outcome: Handlers.Outcome)
      requires Valid()
      modifies this
      ensures Valid()
      ensures Snapshot() == Handlers.StaffProcessReturn(old(Snapshot()), actor, cid, now).store
      ensures outcome == Handlers.StaffProcessReturn(old(Snapshot()), actor, cid, now).outcome
    {
      if actor !in users {
        return Handlers.Unauthenticated;
      }
      if !StaffRequired(users[actor]) {
        return Handlers.Forbidden;
      }
      if cid >= |checkouts| {
        return Handlers.NotFound;
      }
      if checkouts[cid].status != Active {
        return Handlers.NotActive;
      }
      CloseCheckout(cid, now);
      outcome := Handlers.Ok;
      Invariant.StaffProcessReturnPreservesValid(old(Snapshot()), actor, cid, now);
    }

    /** A user reserves resource `rid` at time `now`. */
    method ReserveResource(actor: UserId, rid: ResourceId, now: Time) returns (outcome: Handlers.Outcome)
      requires Valid()
      modifies this
      ensures Valid()
      ensures Snapshot() == Handlers.ReserveResource(old(Snapshot()), actor, rid, now).store
      ensures outcome == Handlers.ReserveResource(old(Snapshot()), actor, rid, now).outcome
    {
      if actor !in users {
        return Handlers.Unauthenticated;
      }
      if rid !in resources {
        return Handlers.NotFound;
      }
      var resource := resources[rid];
      var pending := CountPending(actor);
      if pending >= MaxActiveReservationsPerPatron {
        return Handlers.LimitReached;
      }
      if resource.status == Available {
        return Handlers.AlreadyAvailable;
      }
      reservations := reservations + [NewReservation(actor, rid, now)];
      resources := resources[rid := resource.(status := Reserved)];
      notifications := notifications + [Notification(actor, ReservationAvailable)];
      outcome := Handlers.Ok;
      Invariant.ReserveResourcePreservesValid(old(Snapshot()), actor, rid, now);
    }

    /** An administrator gives user `target` the STAFF role. */
    method PromoteToStaff(actor: UserId, target: UserId) returns (outcome: Handlers.Outcome)
      requires Valid()
      modifies this
      ensures Valid()
      ensures Snapshot() == Handlers.PromoteToStaff(old(Snapshot()), actor, target).store
      ensures outcome == Handlers.PromoteToStaff(old(Snapshot()), actor, target).outcome
    {
      if actor !in users {
        return Handlers.Unauthenticated;
      }
      if !AdminRequired(users[actor]) {
        return Handlers.Forbidden;
      }
      if target !in users {
        return Handlers.NotFound;
      }
      var user := users[target];
      users := users[target := user.(role := Staff)];
      outcome := Handlers.Ok;
      Invariant.PromoteToStaffPreservesValid(old(Snapshot()), actor, target);
    }

    /** An administrator deactivates the staff account `target`. */
    method DeactivateStaff(actor: UserId, target: UserId) returns (outcome: Handlers.Outcome)
      requires Valid()
      modifies this
      ensures Valid()
      ensures Snapshot() == Handlers.DeactivateStaff(old(Snapshot()), actor, target).store
      ensures outcome == Handlers.DeactivateStaff(old(Snapshot()), actor, target).outcome
    {
      if actor !in users {
        return Handlers.Unauthenticated;
      }
      if !AdminRequired(users[actor]) {
        return Handlers.Forbidden;
      }
      if target !in users || !IsStaffUser(users[target]) {
        return Handlers.NotFound;
      }
      var user := users[target];
      users := users[target := user.(isActive := false)];
      outcome := Handlers.Ok;
      Invariant.DeactivateStaffPreservesValid(old(Snapshot()), actor, target);
    }
  }
}

=== FILE: models.dfy ===
/** Entities of the lending system: users with roles, resources, checkouts,
    their return records, reservations and notifications. Every record is a
    value; the tables that hold them live in LibraryStore and Library. Time is
    a whole number of seconds and fines are whole dollars. */
module Models {

  /** Seconds since some fixed epoch. */
  type Time = int
  type UserId = nat
  type ResourceId = nat
  /** Position of a checkout in the append-only checkout table. */
  type CheckoutId = nat

  datatype Option<T> = None | Some(value: T)

  // ---------- Users ----------

  datatype Role = Patron | Staff | Admin

  datatype User = User(role: Role, isActive: bool)

  predicate IsPatron(u: User) { u.role == Patron }

  predicate IsStaffUser(u: User) { u.role == Staff }

  predicate IsAdminUser(u: User) { u.role == Admin }

  /** A freshly registered account: the role field defaults to PATRON and the
      account is active. */
  function NewUser(): (u: User)
    ensures IsPatron(u) && !IsStaffUser(u) && !IsAdminUser(u)
    ensures u.isActive
  {
    User(Patron, true)
  }

  /** The three role predicates partition the users: every user satisfies
      exactly one of them, so an administrator is not a staff user. */
  lemma ExactlyOneRole(u: User)
    ensures (if IsPatron(u) then 1 else 0) + (if IsStaffUser(u) then 1 else 0)
            + (if IsAdminUser(u) then 1 else 0) == 1
    ensures IsAdminUser(u) ==> !IsStaffUser(u) && !IsPatron(u)
  {
    match u.role
    case Patron =>
    case Staff =>
    case Admin =>
  }

  // ---------- Resources ----------

  datatype ResourceType = Book | Media | Digital

  datatype ResourceStatus = Available | CheckedOut | Reserved | Lost

  datatype Resource = Resource(
    title: string,
    author: string,
    kind: ResourceType,
    rfidTag: Option<string>,
    barcode: Option<string>,
    status: ResourceStatus,
    createdAt: Time)

  /** A freshly created resource starts AVAILABLE. */
  function NewResource(title: string, author: string, kind: ResourceType,
                       rfidTag: Option<string>, barcode: Option<string>, now: Time): (r: Resource)
    ensures r.status == Available
  {
    Resource(title, author, kind, rfidTag, barcode, Available, now)
  }

  // ---------- Checkouts and returns ----------

  datatype CheckoutStatus = Active | Returned | LostCheckout

  datatype Checkout = Checkout(
    patron: UserId,
    resource: ResourceId,
    checkoutDate: Time,
    dueDate: Time,
    status: CheckoutStatus)

  /** A checkout is overdue exactly while it is still ACTIVE and the due date
      has passed. */
  predicate IsOverdue(c: Checkout, now: Time): (overdue: bool)
    ensures overdue ==> c.status != Returned && c.status != LostCheckout
  {
    c.status == Active && now > c.dueDate
  }

  /** A freshly created checkout starts ACTIVE, and it is not overdue at its
      own due date. */
  function NewCheckout(patron: UserId, resource: ResourceId, now: Time, due: Time): (c: Checkout)
    ensures c.status == Active && !IsOverdue(c, due)
  {
    Checkout(patron, resource, now, due, Active)
  }

  /** Only an ACTIVE checkout can be overdue: a returned or lost one never is,
      whatever the time. An ACTIVE checkout that is overdue stays overdue as
      time goes on. */
  lemma OverdueOnlyWhileActive(c: Checkout, now: Time, later: Time)
    ensures c.status != Active ==> !IsOverdue(c, now)
    ensures IsOverdue(c, now) && now <= later ==> IsOverdue(c, later)
  {
  }

  /** The closing record of one checkout. The fine is a whole number of
      dollars, so it is never negative. */
  datatype ReturnRecord = ReturnRecord(checkout: CheckoutId, returnedAt: Time, fineAmount: nat)

  // ---------- Reservations ----------

  datatype ReservationStatus = Pending | Notified | Cancelled | Expired

  datatype Reservation = Reservation(
    patron: UserId,
    resource: ResourceId,
    createdAt: Time,
    status: ReservationStatus,
    holdUntil: Option<Time>)

  /** A freshly created reservation starts PENDING with no hold window. */
  function NewReservation(patron: UserId, resource: ResourceId, now: Time): (r: Reservation)
    ensures r.status == Pending && r.holdUntil == None
  {
    Reservation(patron, resource, now, Pending, None)
  }

  // ---------- Notifications ----------

  datatype NotificationType = Overdue | ReservationAvailable | NewResourceNotice | Event

  /** A notification as far as this model cares: who receives it and of what
      kind it is. */
  datatype Notification = Notification(user: UserId, kind: NotificationType)
}

=== FILE: rules.dfy ===
/** The business rules the request handlers share: the role guards, the loan
    period, the overdue fine and the reservation cap. */
module Rules {
  import opened Models

  const SecondsPerDay: nat := 86400

  /** Loans run for a fixed fourteen days. */
  const LoanPeriodDays: nat := 14

  /** A patron may hold at most this many PENDING reservations. */
  const MaxActiveReservationsPerPatron: nat := 10

  /** The test of the staff-only guard: an authenticated user whose role is
      STAFF. Administrators do not pass it. */
  predicate StaffRequired(u: User): (admitted: bool)
    ensures admitted ==> !IsAdminUser(u) && !IsPatron(u)
  {
    IsStaffUser(u)
  }

  /** The test of the admin-only guard. */
  predicate AdminRequired(u: User): (admitted: bool)
    ensures admitted ==> !IsStaffUser(u) && !IsPatron(u)
  {
    IsAdminUser(u)
  }

  /** Because the roles are exclusive, the two guards never admit the same
      user: an administrator is turned away by the staff guard and a staff
      member by the admin guard. */
  lemma GuardsAreExclusive(u: User)
    ensures !(StaffRequired(u) && AdminRequired(u))
    ensures AdminRequired(u) ==> !StaffRequired(u) && !IsPatron(u)
  {
    ExactlyOneRole(u);
  }

  /** The due date of a checkout made at `now`: fourteen days later. The
      handler as written adds a `timedelta` that its module never imports, so
      it would fail at run time; this is the evident intent. */
  function DueDate(now: Time): (due: Time)
    ensures due > now
  {
    now + LoanPeriodDays * SecondsPerDay
  }

  /** A checkout made at `now` with the computed due date is not overdue at any
      time up to fourteen days later, and is overdue at every time after that
      while it stays ACTIVE. */
  lemma DueDateIsFourteenDays(c: Checkout, now: Time, t: Time)
    requires c.status == Active && c.dueDate == DueDate(now)
    ensures c.dueDate - now == 14 * 86400
    ensures IsOverdue(c, t) <==> t > now + 14 * 86400
  {
  }

  /** The number of whole days between the due date and `now`, floored like a
      duration's day count: a part day does not count. Dafny's division by a
      positive number floors, as the duration's day count does. */
  function DaysPastDue(c: Checkout, now: Time): (days: int)
    ensures days * SecondsPerDay <= now - c.dueDate < (days + 1) * SecondsPerDay
  {
    (now - c.dueDate) / SecondsPerDay
  }

  /** The fine due when a checkout is closed at `now`: nothing unless it is
      overdue, and otherwise one dollar per whole day past the due date. */
  function OverdueFine(c: Checkout, now: Time): (fine: nat)
    ensures !IsOverdue(c, now) ==> fine == 0
    ensures IsOverdue(c, now) ==>
              fine * SecondsPerDay <= now - c.dueDate < (fine + 1) * SecondsPerDay
  {
    if !IsOverdue(c, now) then 0
    else
      var days := DaysPastDue(c, now);
      (if days > 0 then days else 0) * 1
  }

  /** A fine is charged exactly when the checkout is still ACTIVE and at least
      one whole day has passed since its due date; a checkout closed less than
      a day late carries no fine. */
  lemma FineChargedIffFullDayLate(c: Checkout, now: Time)
    ensures OverdueFine(c, now) > 0 <==> c.status == Active && now - c.dueDate >= SecondsPerDay
  {
    if c.status == Active && now - c.dueDate >= SecondsPerDay {
      var f := OverdueFine(c, now);
      assert now - c.dueDate < (f + 1) * SecondsPerDay;
    }
  }

  /** The fine grows by exactly one dollar per further whole day: closing the
      same overdue checkout `k` days later costs `k` dollars more. */
  lemma FineIsLinear(c: Checkout, now: Time, k: nat)
    requires IsOverdue(c, now)
    ensures OverdueFine(c, now + k * SecondsPerDay) == OverdueFine(c, now) + k
  {
    var f := OverdueFine(c, now);
    var g := OverdueFine(c, now + k * SecondsPerDay);
    assert (f + k) * SecondsPerDay <= now + k * SecondsPerDay - c.dueDate < (f + k + 1) * SecondsPerDay;
    FloorIsUnique(now + k * SecondsPerDay - c.dueDate, g, f + k);
  }

  /** At most one whole number of days `d` satisfies
      d * SecondsPerDay <= x < (d + 1) * SecondsPerDay. */
  lemma FloorIsUnique(x: int, d1: int, d2: int)
    requires d1 * SecondsPerDay <= x < (d1 + 1) * SecondsPerDay
    requires d2 * SecondsPerDay <= x < (d2 + 1) * SecondsPerDay
    ensures d1 == d2
  {
    DaysAreOrdered(x, d1, d2);
    DaysAreOrdered(x, d2, d1);
  }

  lemma DaysAreOrdered(x: int, a: int, b: int)
    requires a * SecondsPerDay <= x < (b + 1) * SecondsPerDay
    ensures a <= b
  {
    assert (b + 1 - a) * SecondsPerDay > 0;
  }
}

=== FILE: store.dfy ===
/** The relational store as one value: the user and resource tables keyed by
    id, and the append-only checkout, return, reservation and notification
    tables, where a record's id is its position. This module states the
    schema's constraints and the lending invariant that the request handlers
    keep. */
module LibraryStore {
  import opened Models
  import opened Rules

  datatype Store = Store(
    users: map<UserId, User>,
    resources: map<ResourceId, Resource>,
    checkouts: seq<Checkout>,
    returnRecords: seq<ReturnRecord>,
    reservations: seq<Reservation>,
    notifications: seq<Notification>)

  /** A library with no rows in any table. */
  function EmptyStore(): (s: Store)
  {
    Store(map[], map[], [], [], [], [])
  }

  // ---------- Schema constraints ----------

  /** Every foreign key points at an existing row. */
  ghost predicate ReferencesResolve(s: Store)
  {
    && (forall i | 0 <= i < |s.checkouts| ::
          s.checkouts[i].patron in s.users && s.checkouts[i].resource in s.resources)
    && (forall k | 0 <= k < |s.returnRecords| :: s.returnRecords[k].checkout < |s.checkouts|)
    && (forall k | 0 <= k < |s.reservations| ::
          s.reservations[k].patron in s.users && s.reservations[k].resource in s.resources)
    && (forall k | 0 <= k < |s.notifications| :: s.notifications[k].user in s.users)
  }

  /** An identifier that is set (RFID tag or barcode) is carried by at most
      one resource. */
  predicate TagsUnique(resources: map<ResourceId, Resource>): (unique: bool)
    ensures unique ==> forall a, b | a in resources && b in resources && resources[a].rfidTag.Some?
                                     && resources[a].rfidTag == resources[b].rfidTag :: a == b
    ensures unique ==> forall a, b | a in resources && b in resources && resources[a].barcode.Some?
                                     && resources[a].barcode == resources[b].barcode :: a == b
  {
    forall a, b | a in resources && b in resources && a != b ::
      && (resources[a].rfidTag.Some? ==> resources[a].rfidTag != resources[b].rfidTag)
      && (resources[a].barcode.Some? ==> resources[a].barcode != resources[b].barcode)
  }

  /** The one-to-one link from return records to checkouts: no two return records
      close the same checkout. */
  ghost predicate ReturnsOneToOne(s: Store): (oneToOne: bool)
    ensures oneToOne ==> forall i, j | 0 <= i < |s.returnRecords| && 0 <= j < |s.returnRecords|
                                       && s.returnRecords[i].checkout == s.returnRecords[j].checkout :: i == j
  {
    forall i, j | 0 <= i < j < |s.returnRecords| :: s.returnRecords[i].checkout != s.returnRecords[j].checkout
  }

  // ---------- Lending invariant ----------

  /** Every return record closes a checkout that is no longer ACTIVE. */
  ghost predicate ReturnsCloseCheckouts(s: Store)
  {
    forall k | 0 <= k < |s.returnRecords| ::
      s.returnRecords[k].checkout < |s.checkouts| && s.checkouts[s.returnRecords[k].checkout].status == Returned
  }

  /** No two ACTIVE checkouts lend the same resource. */
  ghost predicate AtMostOneActivePerResource(s: Store)
  {
    forall i, j | 0 <= i < j < |s.checkouts| ::
      s.checkouts[i].status == Active && s.checkouts[j].status == Active ==>
        s.checkouts[i].resource != s.checkouts[j].resource
  }

  /** A resource with an ACTIVE checkout is not AVAILABLE. */
  ghost predicate NoActiveWhileAvailable(s: Store)
  {
    forall i | 0 <= i < |s.checkouts| && s.checkouts[i].status == Active ::
      s.checkouts[i].resource in s.resources &&
      s.resources[s.checkouts[i].resource].status != Available
  }

  /** Number of PENDING reservations `patron` holds. */
  function PendingCount(reservations: seq<Reservation>, patron: UserId): (n: nat)
    ensures n <= |reservations|
  {
    if reservations == [] then 0
    else
      var last := reservations[|reservations| - 1];
      PendingCount(reservations[..|reservations| - 1], patron)
        + (if last.patron == patron && last.status == Pending then 1 else 0)
  }

  /** No patron holds more PENDING reservations than the cap. */
  ghost predicate ReservationCapRespected(s: Store)
  {
    forall p :: PendingCount(s.reservations, p) <= MaxActiveReservationsPerPatron
  }

  ghost predicate Valid(s: Store)
  {
    && ReferencesResolve(s)
    && TagsUnique(s.resources)
    && ReturnsOneToOne(s)
    && ReturnsCloseCheckouts(s)
    && AtMostOneActivePerResource(s)
    && NoActiveWhileAvailable(s)
    && ReservationCapRespected(s)
  }

  /** The empty library satisfies every constraint. */
  lemma EmptyStoreValid()
    ensures Valid(EmptyStore())
  {
  }

  // ---------- Views of the tables ----------

  /** The ids of the ACTIVE checkouts of resource `rid`. */
  ghost function ActiveCheckouts(s: Store, rid: ResourceId): set<CheckoutId>
  {
    set i | 0 <= i < |s.checkouts| && s.checkouts[i].resource == rid && s.checkouts[i].status == Active
  }

  /** The ids of the return records that close checkout `cid`. */
  ghost function ReturnsFor(s: Store, cid: CheckoutId): set<nat>
  {
    set k | 0 <= k < |s.returnRecords| && s.returnRecords[k].checkout == cid
  }

  /** The lending invariant stated per resource and per checkout: in a valid
      store each resource has at most one ACTIVE checkout, none at all while it
      is AVAILABLE, and each checkout has at most one return record. */
  lemma ValidStoreLendsEachResourceOnce(s: Store, rid: ResourceId, cid: CheckoutId)
    requires Valid(s)
    ensures |ActiveCheckouts(s, rid)| <= 1
    ensures rid in s.resources && s.resources[rid].status == Available ==> ActiveCheckouts(s, rid) == {}
    ensures |ReturnsFor(s, cid)| <= 1
  {
    var act := ActiveCheckouts(s, rid);
    if act != {} {
      var i :| i in act;
      assert act == {i};
    }
    var rets := ReturnsFor(s, cid);
    if rets != {} {
      var k :| k in rets;
      assert rets == {k};
    }
  }

  /** Appending one reservation raises the PENDING count of its patron by one
      when it is PENDING, and leaves every other count alone. */
  lemma {:induction false} PendingCountAppend(rs: seq<Reservation>, r: Reservation, p: UserId)
    ensures PendingCount(rs + [r], p)
            == PendingCount(rs, p) + (if r.patron == p && r.status == Pending then 1 else 0)
  {
    assert (rs + [r])[..|rs|] == rs;
  }
}

=== FILE: traces.dfy ===
/** Requests in sequence. Any sequence of requests, started from an empty
    library, reaches a valid store; in particular no resource is ever lent
    twice at once. The worked examples of the lending rules are here too. */
module Traces {
  import opened Models
  import opened Rules
  import opened LibraryStore
  import opened Handlers
  import Invariant
  import HandlerSpecs

  datatype Request =
    | CreateAccountRequest(uid: UserId, role: Role)
    | RegisterUserRequest(uid: UserId)
    | AddResourceRequest(rid: ResourceId, title: string, author: string, kind: ResourceType,
                         rfidTag: Option<string>, barcode: Option<string>)
    | CheckoutRequest(actor: UserId, rid: ResourceId)
    | ReturnRequest(actor: UserId, cid: CheckoutId)
    | StaffReturnRequest(actor: UserId, cid: CheckoutId)
    | ReserveRequest(actor: UserId, rid: ResourceId)
    | PromoteRequest(actor: UserId, target: UserId)
    | DeactivateRequest(actor: UserId, target: UserId)

  /** A request together with the time at which it is served. */
  datatype TimedRequest = TimedRequest(request: Request, now: Time)

  /** Serves one request; a valid store stays valid. */
  function Apply(s: Store, req: Request, now: Time): (r: Step)
    requires Valid(s)
    ensures Valid(r.store)
  {
    match req
    case CreateAccountRequest(uid, role) =>
      Invariant.CreateAccountPreservesValid(s, uid, role);
      CreateAccount(s, uid, role)
    case RegisterUserRequest(uid) =>
      Invariant.RegisterUserPreservesValid(s, uid);
      RegisterUser(s, uid)
    case AddResourceRequest(rid, title, author, kind, rfidTag, barcode) =>
      Invariant.AddResourcePreservesValid(s, rid, title, author, kind, rfidTag, barcode, now);
      AddResource(s, rid, title, author, kind, rfidTag, barcode, now)
    case CheckoutRequest(actor, rid) =>
      Invariant.CheckoutResourcePreservesValid(s, actor, rid, now);
      CheckoutResource(s, actor, rid, now)
    case ReturnRequest(actor, cid) =>
      Invariant.ReturnResourcePreservesValid(s, actor, cid, now);
      ReturnResource(s, actor, cid, now)
    case StaffReturnRequest(actor, cid) =>
      Invariant.StaffProcessReturnPreservesValid(s, actor, cid, now);
      StaffProcessReturn(s, actor, cid, now)
    case ReserveRequest(actor, rid) =>
      Invariant.ReserveResourcePreservesValid(s, actor, rid, now);
      ReserveResource(s, actor, rid, now)
    case PromoteRequest(actor, target) =>
      Invariant.PromoteToStaffPreservesValid(s, actor, target);
      PromoteToStaff(s, actor, target)
    case DeactivateRequest(actor, target) =>
      Invariant.DeactivateStaffPreservesValid(s, actor, target);
      DeactivateStaff(s, actor, target)
  }

  /** Serves the requests one after another; a valid store stays valid. */
  function Run(s: Store, trace: seq<TimedRequest>): (t: Store)
    requires Valid(s)
    ensures Valid(t)
    decreases |trace|
  {
    if trace == [] then s
    else Run(Apply(s, trace[0].request, trace[0].now).store, trace[1..])
  }

  /** The lending invariant over whole histories: whatever requests a library
      that started empty has served, each resource has at most one ACTIVE
      checkout, none while it is AVAILABLE, each checkout at most one return
      record, and no user more PENDING reservations than the cap. */
  lemma EveryHistoryLendsEachResourceOnce(trace: seq<TimedRequest>, rid: ResourceId, cid: CheckoutId, p: UserId)
    ensures Valid(EmptyStore())
    ensures var s := Run(EmptyStore(), trace);
            && |ActiveCheckouts(s, rid)| <= 1
            && (rid in s.resources && s.resources[rid].status == Available ==> ActiveCheckouts(s, rid) == {})
            && |ReturnsFor(s, cid)| <= 1
            && PendingCount(s.reservations, p) <= MaxActiveReservationsPerPatron
  {
    EmptyStoreValid();
    ValidStoreLendsEachResourceOnce(Run(EmptyStore(), trace), rid, cid);
  }

  /** An administrator creates a staff account, a patron registers, a book is
      added, and the patron borrows it. */
  function StaffScenario(): (trace: seq<TimedRequest>)
    ensures |trace| == 4
  {
    [TimedRequest(CreateAccountRequest(0, Staff), 0),
     TimedRequest(RegisterUserRequest(1), 0),
     TimedRequest(AddResourceRequest(0, "Dune", "Herbert", Book, None, None), 0),
     TimedRequest(CheckoutRequest(1, 0), 0)]
  }

  /** The store the scenario reaches from the empty library. */
  lemma StaffScenarioStore()
    ensures Valid(EmptyStore())
    ensures var s := Run(EmptyStore(), StaffScenario());
            && 0 in s.users && IsStaffUser(s.users[0])
            && |s.checkouts| == 1 && s.checkouts[0].status == Active && s.checkouts[0].patron == 1
  {
    EmptyStoreValid();
    var trace := StaffScenario();
    var s1 := Apply(EmptyStore(), trace[0].request, 0).store;
    assert s1.users[0].role == Staff && s1.resources == map[] && s1.checkouts == [];
    var s2 := Apply(s1, trace[1].request, 0).store;
    assert s2.users[0].role == Staff && s2.users[1].role == Patron && s2.resources == map[] && s2.checkouts == [];
    var s3 := Apply(s2, trace[2].request, 0).store;
    assert s3.users == s2.users && 0 in s3.resources && s3.resources[0].status == Available && s3.checkouts == [];
    var s4 := Apply(s3, trace[3].request, 0).store;
    assert s4.checkouts == [NewCheckout(1, 0, 0, DueDate(0))] && s4.users == s2.users;
    assert Run(s4, trace[4..]) == s4;
    assert Run(s3, trace[3..]) == s4;
    assert Run(s2, trace[2..]) == s4;
    assert Run(s1, trace[1..]) == s4;
  }

  /** Histories from the empty library include staff work: after the
      scenario, the staff member processes the return a day later. The
      request succeeds, closes the checkout with one return record and makes
      the book AVAILABLE again. */
  lemma StaffReturnInSomeHistory()
    ensures Valid(EmptyStore())
    ensures var s := Run(EmptyStore(), StaffScenario());
            var r := StaffProcessReturn(s, 0, 0, SecondsPerDay);
            && r.outcome == Ok
            && r.store.checkouts[0].status == Returned
            && |ReturnsFor(r.store, 0)| == 1
            && r.store.resources[s.checkouts[0].resource].status == Available
  {
    StaffScenarioStore();
    var s := Run(EmptyStore(), StaffScenario());
    HandlerSpecs.StaffProcessReturnSpec(s, 0, 0, SecondsPerDay);
    HandlerSpecs.CloseCheckoutSpec(s, 0, SecondsPerDay);
  }

  /** Closing an ACTIVE checkout leaves a RETURNED one as it was, and every
      existing return record as it was. */
  lemma CloseLeavesReturned(s: Store, closed: CheckoutId, now: Time, cid: CheckoutId)
    requires Valid(s)
    requires closed < |s.checkouts| && s.checkouts[closed].status == Active
    requires cid < |s.checkouts| && s.checkouts[cid].status == Returned
    ensures var t := CloseCheckout(s, closed, now);
            && t.checkouts[cid] == s.checkouts[cid] && ReturnsFor(t, cid) == ReturnsFor(s, cid)
            && |s.returnRecords| <= |t.returnRecords| && t.returnRecords[..|s.returnRecords|] == s.returnRecords
  {
    var t := CloseCheckout(s, closed, now);
    assert forall k | 0 <= k < |s.returnRecords| :: t.returnRecords[k] == s.returnRecords[k];
  }

  /** A RETURNED checkout stays RETURNED, unchanged, with the same return
      records, whatever one request does: only an ACTIVE checkout is closed. */
  lemma ApplyKeepsReturned(s: Store, req: Request, now: Time, cid: CheckoutId)
    requires Valid(s)
    requires cid < |s.checkouts| && s.checkouts[cid].status == Returned
    ensures var t := Apply(s, req, now).store;
            && cid < |t.checkouts| && t.checkouts[cid] == s.checkouts[cid]
            && ReturnsFor(t, cid) == ReturnsFor(s, cid)
            && |s.returnRecords| <= |t.returnRecords| && t.returnRecords[..|s.returnRecords|] == s.returnRecords
  {
    match req
    case ReturnRequest(actor, closed) =>
      if ReturnResource(s, actor, closed, now).outcome == Ok {
        CloseLeavesReturned(s, closed, now, cid);
      }
    case StaffReturnRequest(actor, closed) =>
      if StaffProcessReturn(s, actor, closed, now).outcome == Ok {
        CloseLeavesReturned(s, closed, now, cid);
      }
    case _ =>
  }

  /** A RETURNED checkout stays RETURNED, with the same return records,
      through any sequence of requests. */
  lemma {:induction false} RunKeepsReturned(s: Store, trace: seq<TimedRequest>, cid: CheckoutId)
    requires Valid(s)
    requires cid < |s.checkouts| && s.checkouts[cid].status == Returned
    ensures var t := Run(s, trace);
            && cid < |t.checkouts| && t.checkouts[cid] == s.checkouts[cid]
            && ReturnsFor(t, cid) == ReturnsFor(s, cid)
            && |s.returnRecords| <= |t.returnRecords| && t.returnRecords[..|s.returnRecords|] == s.returnRecords
    decreases |trace|
  {
    if trace != [] {
      var next := Apply(s, trace[0].request, trace[0].now).store;
      ApplyKeepsReturned(s, trace[0].request, trace[0].now, cid);
      RunKeepsReturned(next, trace[1..], cid);
      var t := Run(s, trace);
      assert t.returnRecords[..|next.returnRecords|][..|s.returnRecords|] == s.returnRecords;
    }
  }

  /** A checkout is returned at most once over any history: after one
      successful return, by the borrower or by staff, and any requests served
      after it, a further return of the checkout by anyone at any time is
      refused, changes nothing, and the checkout still has exactly one return
      record. */
  lemma ReturnHappensOnceInEveryHistory(s: Store, byStaff: bool, actor: UserId, cid: CheckoutId, now: Time,
                                        trace: seq<TimedRequest>, actor2: UserId, later: Time)
    requires Valid(s)
    requires var r := if byStaff then StaffProcessReturn(s, actor, cid, now) else ReturnResource(s, actor, cid, now);
             r.outcome == Ok
    ensures var t := (if byStaff then StaffProcessReturn(s, actor, cid, now) else ReturnResource(s, actor, cid, now)).store;
            Valid(t)
            && var u := Run(t, trace);
            && ReturnResource(u, actor2, cid, later).outcome != Ok
            && ReturnResource(u, actor2, cid, later).store == u
            && StaffProcessReturn(u, actor2, cid, later).outcome != Ok
            && StaffProcessReturn(u, actor2, cid, later).store == u
            && |ReturnsFor(u, cid)| == 1
  {
    var t := (if byStaff then StaffProcessReturn(s, actor, cid, now) else ReturnResource(s, actor, cid, now)).store;
    assert cid < |s.checkouts| && s.checkouts[cid].status == Active && t == CloseCheckout(s, cid, now);
    HandlerSpecs.CloseCheckoutPreservesValidAndSpec(s, cid, now);
    RunKeepsReturned(t, trace, cid);
  }

  // ---------- Worked examples ----------

  /** A patron checks out an AVAILABLE resource at time T and returns it at
      T + 20 days: the loan was due at T + 14 days, so the fine is 6 dollars,
      the resource is AVAILABLE again, and the patron has received exactly a
      NEW_RESOURCE notice and then an OVERDUE notice. */
  lemma ReturnSixDaysLate(s: Store, patron: UserId, rid: ResourceId, T: Time)
    requires Valid(s)
    requires patron in s.users && IsPatron(s.users[patron])
    requires rid in s.resources && s.resources[rid].status == Available
    ensures var out := CheckoutResource(s, patron, rid, T);
            var cid := |s.checkouts|;
            Valid(out.store)
            && var back := ReturnResource(out.store, patron, cid, T + 20 * SecondsPerDay);
            && out.outcome == Ok && back.outcome == Ok
            && back.store.returnRecords == s.returnRecords + [ReturnRecord(cid, T + 20 * SecondsPerDay, 6)]
            && back.store.resources[rid].status == Available
            && back.store.notifications
                 == s.notifications + [Notification(patron, NewResourceNotice), Notification(patron, Overdue)]
  {
    var out := CheckoutResource(s, patron, rid, T);
    var cid := |s.checkouts|;
    HandlerSpecs.CheckoutResourceSpec(s, patron, rid, T);
    Invariant.CheckoutResourcePreservesValid(s, patron, rid, T);
    var now := T + 20 * SecondsPerDay;
    var c := out.store.checkouts[cid];
    assert now - c.dueDate == 6 * SecondsPerDay;
    FloorIsUnique(now - c.dueDate, OverdueFine(c, now), 6);
    HandlerSpecs.ReturnResourceSpec(out.store, patron, cid, now);
  }

  /** A checkout returned on or before its due date carries no fine, and the
      patron is sent an EVENT notice rather than an OVERDUE one. */
  lemma ReturnOnTime(s: Store, patron: UserId, rid: ResourceId, T: Time, d: nat)
    requires Valid(s)
    requires patron in s.users && IsPatron(s.users[patron])
    requires rid in s.resources && s.resources[rid].status == Available
    requires d <= LoanPeriodDays * SecondsPerDay
    ensures var out := CheckoutResource(s, patron, rid, T);
            var cid := |s.checkouts|;
            Valid(out.store)
            && var back := ReturnResource(out.store, patron, cid, T + d);
            && back.outcome == Ok
            && back.store.returnRecords == s.returnRecords + [ReturnRecord(cid, T + d, 0)]
            && back.store.resources[rid].status == Available
            && back.store.notifications
                 == s.notifications + [Notification(patron, NewResourceNotice), Notification(patron, Event)]
  {
    var out := CheckoutResource(s, patron, rid, T);
    var cid := |s.checkouts|;
    HandlerSpecs.CheckoutResourceSpec(s, patron, rid, T);
    Invariant.CheckoutResourcePreservesValid(s, patron, rid, T);
    HandlerSpecs.ReturnResourceSpec(out.store, patron, cid, T + d);
  }

  /** Returning a checkout five days after its due date costs five dollars. */
  lemma FiveDaysLateCostsFive(c: Checkout, now: Time)
    requires c.status == Active && now == c.dueDate + 5 * SecondsPerDay
    ensures OverdueFine(c, now) == 5
  {
    FloorIsUnique(now - c.dueDate, OverdueFine(c, now), 5);
  }

  /** The cap at its edge: with nine PENDING reservations the tenth is placed
      (on a resource that is not AVAILABLE); with ten, an eleventh is refused. */
  lemma ReservationCapEdge(s: Store, patron: UserId, rid: ResourceId, now: Time)
    requires Valid(s)
    requires patron in s.users && rid in s.resources && s.resources[rid].status != Available
    ensures PendingCount(s.reservations, patron) == 9 ==>
              var r := ReserveResource(s, patron, rid, now);
              r.outcome == Ok && PendingCount(r.store.reservations, patron) == 10
    ensures PendingCount(s.reservations, patron) == 10 ==>
              ReserveResource(s, patron, rid, now).outcome == LimitReached
  {
    HandlerSpecs.ReserveResourceSpec(s, patron, rid, now);
  }
}
